=== FILE: README.md ===
# singlefilefs in Dafny

A model of the Linux "single file" filesystem module and its formatting tool.
The image is laid out like this:

- block 0 holds the superblock;
- block 1 holds the inode of the only file, `the-file`;
- blocks 2 .. n+1 are the n data blocks.

Each data block starts with a 4-byte metadata word: `prev_valid`, `next_valid` and `is_valid`.
The word is followed by a payload of up to 4092 bytes and by padding.
The seeded blocks are threaded into a doubly linked "validity chain".
The superblock's `first_valid` and `last_valid` anchor that chain.

The model covers these pieces:

- **The formatting tool** (`MakeFs`).
  - Its argument checks, in order.
  - The superblock and inode values it writes.
  - The metadata, payload and padding of every data block.
  - The validity chain it creates. `Chain` defines what a well-formed chain is and proves the chain walks recover it.
- **Mounting** (`Mount`).
  - The rejection checks of `singlefilefs_fill_super`.
  - The `is_mounted` compare-and-swap transitions of `singlefilefs_mount` and `singlefilefs_kill_superblock`.
  - The `usages` gate on unmount.
- **The file and directory operations**.
  - `FileOps` models the block-bounded read of `onefilefs_read` and the name match of `onefilefs_lookup`.
  - `DirOps` models the cursor machine of `onefilefs_iterate`.
- **The three system calls and the device file operations** (`DevFunctions`).
  - `put_data`, `get_data` and `invalidate_data`: their error decisions in order.
  - `get_data`'s size clamp, its device byte offset and its returned length.
  - `dev_read`, `dev_open` and `dev_release`.
- **Cross-file properties** (`ImageProps`).
  - A formatted image mounts.
  - A seeded block reads back through `get_data`.
  - File reads on a formatted device stay on its data blocks.
  - The directory lists exactly the name the lookup resolves.

Supporting modules:

- `CTypes` makes C integer narrowing explicit: `int` is 32-bit two's complement and `uint64_t` wraps modulo 2^64.
- `CString` models `strnlen` and `strlen`.
- `Device` models `sb_bread` and `kernel_read` over a device given as its byte contents.
- `Disk` holds the on-disk records.
- `FsDefs` holds the constants and error numbers.
- `Wrappers` holds `Option` and `Result`.

Whatever the kernel or the C library decides is a parameter of the model:

- whether an I/O operation, an allocation, a file-descriptor grab or a file open succeeds;
- what `dir_emit` answers;
- how many bytes `copy_to_user` manages to copy;
- what `mount_bdev` returns;
- the `is_valid` bit of the in-memory list node that `get_data` consults.

Error numbers appear negated, as the code returns them: ENODEV 19, EINVAL 22, EIO 5, ENODATA 61, EPERM 1, ENOMEM 12, EEXIST 17, EBADF 9.

The model follows the code, including where the code does less than its data structures suggest.
There are four exceptions, each modelled as written too; see "## Findings" and "## Left out".
The formatter's file size and `get_data`'s byte offset use the corrected 64-bit arithmetic; the code computes both in 32-bit `int`, which overflows on large devices.
The lookup binds the dentry when the file's inode is already cached, which the code skips.
`Mount.FillSuper` checks the buffer head of block 1 as the code does for block 0; the code tests the superblock pointer instead.
Points worth knowing:

- **`sys_put_data` and `sys_invalidate_data` only check their arguments.**
  - They return 0 afterwards (devFunctions.c:44-49 and 189-195).
  - No slot is allocated.
  - No block is unlinked.
  - No validity bit changes.
- **`sys_get_data` takes a block's validity from the in-memory list node** (devFunctions.c:102-118), not from the on-disk metadata.
  The code that populates that list is not part of this model. `ImageProps` connects the two by letting the node's bit be the block's metadata bit.
- **The returned length counts the terminating zero byte when there is one** (devFunctions.c:157-159).
- **The system calls test the flag `m_info.is_mounted`**, while mount and unmount flip `au_info.is_mounted`.
  The model treats them as one flag: a `mounted` parameter of the calls that matches `FsState.isMounted`.

## Model

| member | source | states |
|---|---|---|
| CTypes.WrapInt32 | filesystem/singlefilefs_src.c:75 | Narrowing to a C `int` yields the unique value in [-2^31, 2^31) congruent to the input modulo 2^32, and is the identity on values already in range. |
| CTypes.ToUint64 | filesystem/singlefilemakefs.c:107 | Conversion to `uint64_t` yields the value congruent to the input modulo 2^64, and is the identity on values already in range. |
| CString.StrNLen | devFunctions.c:157 | `strnlen` returns an index no larger than the bound or the buffer. No byte before that index is zero. When the index is below the bound, the byte there is the zero terminator. |
| CString.TerminatedLength | devFunctions.c:157-159 | The count `get_data` reports never exceeds the bytes read. It is one past the first zero byte when a zero byte ends the text early, and it is all bytes when none of them is zero. |
| CString.TerminatedLengthOfText | devFunctions.c:157-159 | A zero-free prefix is always counted in full. A zero byte right after it makes the count exactly the prefix plus the terminator. |
| Device.BlockRead | filesystem/file.c:49-52 | `sb_bread` yields a buffer exactly when the read succeeds and the block lies within the device. The buffer holds exactly that block's 4096 bytes. |
| Device.KernelRead | devFunctions.c:141 | `kernel_read` fails on an I/O error or a negative position. Otherwise it returns the device bytes from the position, at most the requested count, and fewer only at the end of the device. |
| Chain.Forward | filesystem/singlefilemakefs.c:151-154 | A walk along `next_valid` visits only indices of existing blocks and takes at most `fuel` steps. |
| Chain.Backward | filesystem/singlefilemakefs.c:156 | A walk along `prev_valid` visits only indices of existing blocks and takes at most `fuel` steps. |
| Chain.ForwardFollowsLinks | filesystem/singlefilemakefs.c:151-154 | On a linked chain, walking `next_valid` from element i visits exactly the rest of the chain in order and stops after the last element. |
| Chain.BackwardFollowsLinks | filesystem/singlefilemakefs.c:156 | On a linked chain, walking `prev_valid` from element i visits elements i, i-1, ..., 0 and stops. |
| Chain.ChainWalks | filesystem/singlefilemakefs.c:74-75 | For a chain anchored at the superblock's `first_valid`/`last_valid`, the forward walk from `first_valid` is the chain and the backward walk from `last_valid` is the chain reversed: `prev_valid` inverts `next_valid`. |
| Chain.ChainUnique | filesystem/singlefilemakefs.c:74-75 | The anchors and the links determine the chain: two validity chains over the same superblock and metadata are equal. |
| MakeFs.SeedText | filesystem/singlefilemakefs.c:178 | The payload written for a seeded entry is its C-string text: a prefix of the entry with no zero byte, ending at the entry's first zero byte or at its end. |
| MakeFs.FirstOversized | filesystem/singlefilemakefs.c:138-149 | Finds the first seeded entry whose text exceeds the 4092-byte payload area, with all earlier entries fitting; none is found exactly when every entry fits. |
| MakeFs.FileSize | filesystem/singlefilemakefs.c:107 | The intended file size is a whole number of blocks, exactly n of them. |
| MakeFs.Format | filesystem/singlefilemakefs.c:20-248 | The formatter's four checks hold in order, each one exactly when the earlier checks pass: usage, `n <= 0`, more seeded entries than blocks, open failure. An oversized entry aborts at the first such entry. Success happens exactly when all checks pass. On success the superblock is (version, MAGIC, 4096, n, 0, k-1) and the file inode is inode 1 of size n*4096. Seeded block i has prev i-1, next i+1 (-1 for the last), is valid and carries the entry's text. Every other block is invalid, has -1 links and is empty. Every data block occupies exactly 4096 bytes. |
| MakeFs.RejectsBeforeOpen | filesystem/singlefilemakefs.c:50-62 | A bad block count or too many seeded entries is reported before the device is opened, so the outcome does not depend on whether the device can be opened. |
| MakeFs.FormatChainWellFormed | filesystem/singlefilemakefs.c:74-75 | A formatted image with k >= 1 seeded entries carries a well-formed validity chain 0, 1, ..., k-1. The chain is anchored at `first_valid` and `last_valid`, is doubly linked, contains every valid block and repeats none. |
| MakeFs.FormatChainWalks | filesystem/singlefilemakefs.c:151-157 | On a formatted image, following `next_valid` from `first_valid` visits 0, ..., k-1 and ends at `last_valid`; following `prev_valid` from `last_valid` visits k-1, ..., 0. |
| MakeFs.FileSizeAsWritten | filesystem/singlefilemakefs.c:107 | The size the formatter records as written is a whole number of blocks and agrees with n*4096 modulo 2^32: the `int` product wrapped before it is widened. |
| MakeFs.FileSizeAsWrittenBelowOverflow | filesystem/singlefilemakefs.c:107 | Below 2^19 data blocks the `int` product does not overflow and the recorded size is n*4096. |
| MakeFs.FileSizeAsWrittenOverflows | filesystem/singlefilemakefs.c:107 | With 2^20 data blocks the `int` product as written wraps, and the recorded file size is 0 instead of 2^32. |
| FileOps.PlanRead | filesystem/file.c:32-44 | A read at or past the end of the file touches nothing. Otherwise the count never exceeds the request, the end of the file or the end of the block. It falls short of the request only at one of those two ends. The in-block offset is `off % 4096` and the device block is `off / 4096 + 2`. |
| FileOps.FileRead | filesystem/file.c:16-58 | `onefilefs_read` covers four cases. At or past the end of the file it returns 0 and leaves the position alone. It returns -EIO exactly when the block cannot be read. Otherwise it returns the planned count, or what the user buffer takes if that is less, and advances the position by exactly that. The bytes delivered are the file's bytes from `off`, and a read never crosses a block boundary or the end of the file. |
| FileOps.ReadStaysInDataBlocks | filesystem/file.c:44 | For a file of n blocks and a position inside it, the block read is one of the data blocks 2 .. n+1. |
| FileOps.ReadsContinue | filesystem/file.c:55-58 | Two successive reads, the second at the position the first left, deliver consecutive file bytes with no gap and no repetition. |
| FileOps.Lookup | filesystem/file.c:64-125 | The lookup, with the cached branch binding the dentry as the new-inode branch does at file.c:116-117. It is negative exactly for names other than "the-file" and never leaves the dentry unbound. It returns the dentry bound to the file's inode exactly when the name matches, the inode can be obtained, and the inode is cached or its block is readable. It returns -ENOMEM exactly when the name matches and no inode can be obtained. It returns -EIO exactly when the name matches, a new (uncached) inode is obtained and its block cannot be read. |
| FileOps.LookupAsWritten | filesystem/file.c:64-125 | The lookup as written: an inode already in the cache (file.c:87-89) gets the dentry back unbound, without `d_add` or `dget`, exactly when the name matches and the inode can be obtained; in every other case the outcome is the corrected lookup's, and where the two differ the corrected one binds the dentry. |
| FileOps.CachedLookupUnbound | filesystem/file.c:87-89 | A lookup of "the-file" whose inode is still cached gets an unbound dentry from the code as written and a bound one from the corrected lookup. |
| DirOps.LeadingAccepts | filesystem/dir.c:27-53 | Counts the `dir_emit` answers that succeed before the first failure: all of them up to that count are successes, and the next one, if any, is a failure. |
| DirOps.Iterate | filesystem/dir.c:19-58 | The iterator always returns 0. A cursor outside 0..2 emits nothing and does not move. From 0..2 the cursor advances once per accepted entry, up to 3, and the accepted entries are exactly the listing ".", "..", "the-file" (inodes 10, 1, 1) between the two positions. |
| DirOps.IterateCompletes | filesystem/dir.c:23-56 | When every offer is accepted, a call ends at position 3 having emitted the rest of the listing. |
| DirOps.IterateRefused | filesystem/dir.c:27-29 | A refused first offer stops the call with the cursor unchanged and nothing emitted. |
| DirOps.IterateResumes | filesystem/dir.c:25-47 | A second call resuming where the first stopped emits a contiguous stretch of the listing: no entry is repeated or skipped. |
| Mount.MountedBlocks | filesystem/singlefilefs_src.c:75 | `num_mounted_blocks` is the file size in blocks narrowed to `int`: congruent to it modulo 2^32 and equal to it whenever it fits. |
| Mount.ExpectedBlocks | filesystem/singlefilefs_src.c:65 | `num_expected_blocks` is the superblock's data block count narrowed to `int`: congruent to it modulo 2^32 and equal to it whenever it fits. |
| Mount.FillSuperAsWritten | filesystem/singlefilefs_src.c:70-74 | As written, `fill_super` dereferences a NULL buffer exactly when the struct fits, block 0 reads and block 1 does not. |
| Mount.FillSuper | filesystem/singlefilefs_src.c:35-86 | The corrected `fill_super` (block 1's buffer head checked as block 0's is) never dereferences NULL. Its rejections come in order: -ENOMEM for an oversized superblock struct, -EIO for an unreadable block, -EINVAL when the file's block count exceeds the superblock's, then -EBADF for a wrong magic number. It succeeds exactly when none applies. |
| Mount.BdevOf | filesystem/singlefilefs_src.c:200 | `mount_bdev` returns the root dentry exactly when `fill_super` succeeds; a rejection is passed on with `fill_super`'s own error, as one that ran after the superblock existed. |
| Mount.FillSuperAsWrittenAgrees | filesystem/singlefilefs_src.c:70-86 | The code as written and the corrected `fill_super` agree whenever block 1 can be read. |
| Mount.MountFs | filesystem/singlefilefs_src.c:167-207 | SRCU failure returns -ENOMEM with the flags untouched. An already set flag gives -EEXIST and stays set. Otherwise the flag goes 0 to 1 and stays there unless `fill_super` rejects the device: then `kill_sb` runs on the raised flag and lowers it exactly when no operation is in flight. The mount succeeds exactly when `mount_bdev` does, and a failing `mount_bdev`'s error is what the mount returns. The flag never goes from 1 to 0 between the calls' start and end states, and `usages` is untouched. |
| Mount.MountFsFixed | filesystem/singlefilefs_src.c:187-207 | The corrected mount raises the flag exactly when it succeeds. Success happens exactly when SRCU initialises, the flag was clear and `mount_bdev` succeeds. |
| Mount.KillSuperblock | filesystem/singlefilefs_src.c:142-163 | Unmount is refused without change while `usages` is nonzero. It releases the superblock exactly when no operation is in flight and the flag is 1, clearing the flag. Otherwise nothing changes. |
| Mount.FlagStaysBoolean | filesystem/singlefilefs_src.c:152-190 | Mount (as written and corrected) and unmount keep `is_mounted` in {0, 1}. |
| Mount.SecondMountRefused | filesystem/singlefilefs_src.c:187-191 | After a successful mount, a second mount is refused with -EEXIST and leaves `is_mounted` and `usages` unchanged. |
| Mount.MountThenUnmount | filesystem/singlefilefs_src.c:147-159 | With no operation in flight, an unmount after a successful mount releases the superblock and restores the state before the mount. |
| Mount.FailedMountBlocksRemount | filesystem/singlefilefs_src.c:187-207 | As written, a `mount_bdev` that fails before `fill_super` runs (e.g. a non-existent device path) returns its error but leaves `is_mounted` at 1, so the next mount is refused with -EEXIST. |
| Mount.RejectedDeviceLeavesUnmounted | filesystem/singlefilefs_src.c:147-159 | When `fill_super` rejects the device and no operation is in flight, the `kill_sb` that `mount_bdev` triggers lowers the flag again: the mount returns `fill_super`'s error and the state is as before. |
| Mount.FixedFailedMountAllowsRemount | filesystem/singlefilefs_src.c:187-207 | With the flag given back, a failed mount leaves the state as it was and a retry with a working device succeeds. |
| DevFunctions.PutData | devFunctions.c:22-49 | `put_data` returns -ENODEV exactly when unmounted. It returns -EINVAL exactly when mounted with a size over 4092, a zero size or a NULL source. It returns 0 exactly otherwise. |
| DevFunctions.PutSizeNeverClamped | devFunctions.c:34-37 | Any size `put_data` accepts fits the 4092-byte payload area that `get_data` reads, so `get_data`'s clamp never shortens it. |
| DevFunctions.ClampSize | devFunctions.c:94-96 | The size `get_data` reads is at most 4092 and at most the request, and is one of the two. |
| DevFunctions.GetDataChecks | devFunctions.c:71-130 | All of `get_data`'s pre-read checks pass exactly when the call is mounted, has a destination, finds a superblock, has an offset within [0, total_data_blocks), finds a valid node and gets a descriptor and an opened device. |
| DevFunctions.GetData | devFunctions.c:54-164 | `get_data`'s checks come in order: -ENODEV when unmounted, -EINVAL for a NULL destination, -EIO without a superblock, -EINVAL for an out-of-range offset, -ENODATA for an invalid block, then -EIO when no descriptor is free, when the device file cannot be opened or when the read fails. It succeeds exactly when all checks and the read succeed, and an error leaves nothing delivered. On success it delivers at most the clamped size, all from the payload area of data block `offset` (never blocks 0-1, its metadata or the next block), exactly the clamped size when the device holds it, and returns the terminator-inclusive length. |
| DevFunctions.PayloadOffsetAsWritten | devFunctions.c:136 | The byte offset `get_data` computes as written agrees with the payload start of block `offset` modulo 2^32: the `int` expression wrapped before it is stored into `loff_t`. |
| DevFunctions.PayloadOffsetAsWrittenAgrees | devFunctions.c:136 | Below block 524286 the byte offset as written is exactly the start of the block's payload area. |
| DevFunctions.PayloadOffsetAsWrittenWraps | devFunctions.c:136 | At block 1048574 the `int` arithmetic as written wraps to byte 4 of the superblock, where the payload really starts at byte 2^32 + 4. |
| DevFunctions.GetDataAsWritten | devFunctions.c:136-141 | `get_data` with the byte offset computed in 32-bit `int`, as written. Below block 524286 it behaves exactly like the corrected call. From block 524286 up to 1048574 the offset is negative, so every call that passes the checks fails with -EIO and delivers nothing. |
| DevFunctions.GetDataAsWrittenReadsSuperblock | devFunctions.c:136-141 | When every check passes for block 1048574, `get_data` as written succeeds but delivers bytes from inside the superblock. The corrected call delivers that block's payload. |
| DevFunctions.InvalidateData | devFunctions.c:167-197 | `invalidate_data` returns -ENODEV exactly when unmounted. It returns -EIO exactly when no superblock is found. It returns -EINVAL exactly for an offset outside [0, total_data_blocks), and 0 exactly otherwise. |
| DevFunctions.InvalidateAgreesWithGetData | devFunctions.c:89-92 | On a mounted filesystem with a superblock, `invalidate_data` rejects an index as out of range exactly when `get_data` does, and it accepts every block that `get_data` would read. |
| DevFunctions.DevRead | devFunctions.c:211-264 | `dev_read` returns -ENODEV with nothing read when unmounted. Otherwise it behaves exactly like `onefilefs_read`. |
| DevFunctions.DevOpen | devFunctions.c:267-282 | `dev_open` returns -ENODEV exactly when unmounted, -EPERM exactly when mounted and opened for writing, and 0 exactly for a read-only open. |
| DevFunctions.DevRelease | devFunctions.c:285-296 | `dev_release` returns 0 exactly when mounted and -ENODEV otherwise. |
| DevFunctions.OpenedDeviceReleases | devFunctions.c:267-296 | A device file that `dev_open` opened can be released by `dev_release` while the mount lasts. |
| ImageProps.FormattedImageMounts | filesystem/singlefilefs_src.c:75-86 | A formatted image records n*4096 as the file size. Its mounted and expected block counts are both n, so it passes every check of `fill_super`, both as written and corrected. |
| ImageProps.FormattedImageMountsAndUnmounts | filesystem/singlefilefs_src.c:142-207 | On an unmounted filesystem, mounting a formatted image (with `mount_bdev` passing on the outcome of `fill_super`) succeeds and sets the flag to 1. An unmount with no operation in flight then releases the superblock and restores the state. |
| ImageProps.AsWrittenSizePassesBlockCheck | filesystem/singlefilefs_src.c:75-78 | Even the overflowing file size that the formatter as written records yields a block count not above n, so `fill_super` does not notice it. |
| ImageProps.SeededBlockReadsBack | devFunctions.c:136-159 | Round trip from formatter to `get_data`: on a device carrying a formatted image, a request for seeded block i at least as long as its entry delivers the entry's text first and reports at least its length. |
| ImageProps.UnseededBlockRefused | devFunctions.c:89-118 | On a formatted image, a request for an unseeded block gets -ENODATA and one past the last block gets -EINVAL. |
| ImageProps.FileReadOnFormattedDevice | filesystem/file.c:32-58 | On a device carrying a formatted image, a read inside the file touches a data block 2 .. n+1, returns a positive count and leaves the position within the file. |
| ImageProps.ListedNamesResolve | filesystem/dir.c:47-56 | The directory listing and the corrected lookup agree. Every listed entry other than "." and ".." is a name the lookup binds to the file's inode, carries inode number 1, and is bound by the code as written too when its inode was not yet cached; the lookup binds no name that is not listed. |

## Left out

- MakeFs.Format: records the file size n*4096 computed without overflow. The code's `int` product agrees with it below 2^19 data blocks (`MakeFs.FileSizeAsWrittenBelowOverflow`) and wraps above; the as-written value is `MakeFs.FileSizeAsWritten`.
- MakeFs.Format: an oversized seeded entry is reported as `PayloadTooLarge` with no image. The tool has by then already written the superblock, the inode and the blocks before that entry (singlefilemakefs.c:144-149), and that partial image is not modelled.
- DevFunctions.GetData: reads at the payload start of block `offset` computed without overflow. The code's `int` offset agrees with it below block 524286 (`DevFunctions.PayloadOffsetAsWrittenAgrees`); above, the as-written behaviour is `DevFunctions.GetDataAsWritten`.
- DevFunctions.GetData: `get_data` opens the file named "image" (devFunctions.c:126, devFunctions.h:5), relative to the caller's working directory. The model takes its bytes, `GetEnv.dev`, to be the mounted device whose superblock the call consults. `ImageProps.SeededBlockReadsBack` relies on this too.
- Device writes of the formatting tool: every `write` is taken to complete. The write-failure exits (singlefilemakefs.c:79-84, 93-98, 113-118, 127-132, 165-170, 179-184, 192-198, 217-222, 232-237) are not modelled, and neither are the uninitialised padding bytes.
- `atoi` parsing of the block count: the count is given as an `int` directly.
- The byte layout of the superblock, of the inode record and of the bit fields of the metadata word. The two definitions of `struct onefilefs_sb_info` conflict, and neither has `first_valid`/`last_valid`. The model uses the field values the formatter assigns, and `Disk.Holds` ties only payload bytes to the device.
- With zero seeded entries the formatter would record `first_valid = 0` for an invalid block 0. The default body has five entries, so `MakeFs.FormatChainWellFormed` and `MakeFs.FormatChainWalks` require at least one entry.
- Mount.MountFs: every call, including one refused with -EEXIST, first copies the static mutexes over `au_info`'s and re-initialises its SRCU struct (singlefilefs_src.c:178-185), also while a mounted filesystem is using them. The mutexes and the SRCU struct are not modelled, so `Mount.SecondMountRefused` speaks only of `is_mounted` and `usages`.
- RCU and SRCU read sections, the mutexes, the atomic `usages` counter and every concurrent interleaving: mount and unmount are modelled sequentially. Several `get_data` error paths return without `rcu_read_unlock`, the descriptor from `get_unused_fd_flags` is never installed or released, and nothing in the code increments `usages`.
- The VFS side: inode and dentry setup in `fill_super` and `lookup`, the root-inode allocation failures of `fill_super` (singlefilefs_src.c:92-128), the setting of `global_sb`, and what `kill_block_super` releases. The `kill_sb` call that `mount_bdev` makes after a rejecting `fill_super` is modelled only by its effect on the flag.
- `mount_bdev` itself (opening the block device, finding or creating the VFS superblock) is reduced to its outcome; only `ImageProps.FormattedImageMountsAndUnmounts` feeds it the outcome of `fill_super`.
- The list of in-memory `rcu_node`s and how it is populated: `get_data` sees only the `is_valid` bit of the node reached after `offset` steps.
- FileOps.FileRead: the position `*off` is taken to be non-negative and `off + len` not to wrap a 64-bit value. The `int` narrowing of `block_to_read` is not modelled, because it only matters beyond 2^31 blocks.
- FileOps.Lookup: the dentry and its reference count are not modelled, only the outcome of the lookup. The cached branch (file.c:87-89) is modelled as binding the dentry like the new-inode branch; as written it returns the dentry unbound and without the `dget` of file.c:117, which is `FileOps.LookupAsWritten`.
- DevFunctions.GetData: the destination is modelled as an ordinary buffer that receives the bytes read. In the code it is the caller's user-space pointer, which `kernel_read` writes through a kernel-memory copy (devFunctions.c:141) and `strnlen` reads directly (devFunctions.c:157), without `copy_to_user` or `strnlen_user`. The user/kernel address-space split, and the fault these accesses take with SMAP enabled, are not modelled; `ImageProps.SeededBlockReadsBack` relies on the destination receiving the bytes.
- Module setup (initAndExit.c: system-call table patching and filesystem registration), the `sb_bread` helpers of utils.c, and the user-space programs under test/ and user/.
- `onefilefs_write` does not exist in the code; the file is read-only.

## Findings

| source | as written | input that shows it | evidently intended | confidence | as-written member | corrected member |
|---|---|---|---|---|---|---|
| filesystem/singlefilemakefs.c:107 | `num_data_blocks * DEFAULT_BLOCK_SIZE` is an `int` product, wrapped to 32 bits before it is widened to the `uint64_t` field | n = 1048576 data blocks (a 4 GiB device) records file size 0 | file size n*4096 | medium (not executed; relies on gcc's wrapping of signed overflow) | MakeFs.FileSizeAsWrittenOverflows | MakeFs.FileSize |
| devFunctions.c:136 | `(2+offset)*DEFAULT_BLOCK_SIZE + METADATA_SIZE` is computed in `int` and only then stored into `loff_t` | offset = 1048574 on a device with more data blocks yields byte offset 4, inside the superblock | byte offset (2+offset)*4096+4 in 64-bit arithmetic | medium (not executed; relies on gcc's wrapping of signed overflow) | DevFunctions.GetDataAsWrittenReadsSuperblock | DevFunctions.GetData |
| filesystem/singlefilefs_src.c:70-74 | after reading block 1 the code tests `!sb` instead of `!bh`, so a failed read is dereferenced | block 0 readable, block 1 not (device of one block) | return -EIO as for block 0 | high (not executed) | Mount.MountedBlocks | filesystem/singlefilefs_src.c:75 | `num_mounted_blocks` is the file size in blocks narrowed to `int`: congruent to it modulo 2^32 and equal to it whenever it fits. |
| Mount.ExpectedBlocks | filesystem/singlefilefs_src.c:65 | `num_expected_blocks` is the superblock's data block count narrowed to `int`: congruent to it modulo 2^32 and equal to it whenever it fits. |
| Mount.FillSuperAsWritten | Mount.FillSuper |
| filesystem/singlefilefs_src.c:187-207 | the flag set by the compare-and-swap is not cleared when `mount_bdev` fails before `kill_sb` can run | mount of a non-existent device path: `mount_bdev` fails, every later mount gets -EEXIST | clear `is_mounted` on failure | medium (not executed; depends on where `mount_bdev` fails) | Mount.FailedMountBlocksRemount | Mount.RejectedDeviceLeavesUnmounted | filesystem/singlefilefs_src.c:147-159 | When `fill_super` rejects the device and no operation is in flight, the `kill_sb` that `mount_bdev` triggers lowers the flag again: the mount returns `fill_super`'s error and the state is as before. |
| Mount.FixedFailedMountAllowsRemount |
| filesystem/file.c:87-89 | when the file's inode is already cached, `child_dentry` is returned before `d_add` and `dget` (file.c:116-117), so VFS gets a negative dentry back and drops one reference more than it took | a lookup of "the-file" after its dentry was evicted while its inode stayed in the inode cache | bind the dentry to the cached inode and take the reference, as for a new inode | medium (not executed; depends on the inode outliving its dentry) | FileOps.CachedLookupUnbound | FileOps.Lookup |

=== FILE: chain.dfy ===
/** The validity chain: the doubly linked list of live data blocks threaded
    through the `prev_valid` / `next_valid` fields of their metadata and
    anchored by the superblock's `first_valid` and `last_valid`. */
module Chain {
  import opened FsDefs
  import opened Disk

  /** The blocks reached from `cur` by following `next_valid`, stopping at
      an index outside the block array or after `fuel` steps. */
  function Forward(metas: seq<BlockMeta>, cur: int, fuel: nat): (path: seq<nat>)
    ensures |path| <= fuel
    ensures forall i :: 0 <= i < |path| ==> path[i] < |metas|
    decreases fuel
  {
    if fuel == 0 || !(0 <= cur < |metas|) then []
    else [cur as nat] + Forward(metas, metas[cur].nextValid, fuel - 1)
  }

  /** The blocks reached from `cur` by following `prev_valid`. */
  function Backward(metas: seq<BlockMeta>, cur: int, fuel: nat): (path: seq<nat>)
    ensures |path| <= fuel
    ensures forall i :: 0 <= i < |path| ==> path[i] < |metas|
    decreases fuel
  {
    if fuel == 0 || !(0 <= cur < |metas|) then []
    else [cur as nat] + Backward(metas, metas[cur].prevValid, fuel - 1)
  }

  function Reverse(s: seq<nat>): (r: seq<nat>)
    ensures |r| == |s|
    ensures forall j :: 0 <= j < |s| ==> r[j] == s[|s| - 1 - j]
  {
    if |s| == 0 then [] else [s[|s| - 1]] + Reverse(s[..|s| - 1])
  }

  /** `order` lists distinct valid blocks, each one's `next_valid` naming
      the following one and each one's `prev_valid` the preceding one, with
      `NONE` at both ends. */
  ghost predicate Linked(metas: seq<BlockMeta>, order: seq<nat>)
  {
    && (forall i :: 0 <= i < |order| ==> order[i] < |metas| && metas[order[i]].isValid)
    && (forall i, j :: 0 <= i < j < |order| ==> order[i] != order[j])
    && (|order| > 0 ==>
          && metas[order[0]].prevValid == NONE
          && metas[order[|order| - 1]].nextValid == NONE)
    && (forall i :: 0 <= i < |order| - 1 ==>
          && metas[order[i]].nextValid == order[i + 1]
          && metas[order[i + 1]].prevValid == order[i])
  }

  /** `order` is the validity chain of the superblock `sb` over `metas`: it
      is linked, holds every valid block, and is anchored at both ends. */
  ghost predicate IsChain(sb: Superblock, metas: seq<BlockMeta>, order: seq<nat>)
  {
    && Linked(metas, order)
    && (forall x :: 0 <= x < |metas| && metas[x].isValid ==> x in order)
    && (if |order| == 0 then sb.firstValid == NONE && sb.lastValid == NONE
        else sb.firstValid == order[0] && sb.lastValid == order[|order| - 1])
  }

  /** A block outside the chain: invalid and pointing nowhere. */
  predicate Detached(m: BlockMeta)
  {
    !m.isValid && m.prevValid == NONE && m.nextValid == NONE
  }

  /** Walking `next_valid` from any chain element visits the rest of the
      chain in order and stops after the last one. */
  lemma {:induction false} ForwardFollowsLinks(metas: seq<BlockMeta>, order: seq<nat>, i: nat, fuel: nat)
    requires Linked(metas, order)
    requires i < |order| && fuel >= |order| - i
    ensures Forward(metas, order[i], fuel) == order[i..]
    decreases |order| - i
  {
    if i == |order| - 1 {
      assert Forward(metas, metas[order[i]].nextValid, fuel - 1) == [];
    } else {
      ForwardFollowsLinks(metas, order, i + 1, fuel - 1);
      assert order[i..] == [order[i]] + order[i + 1..];
    }
  }

  /** Walking `prev_valid` from chain element `i` visits elements i, i-1,
      ..., 0 and stops. */
  lemma {:induction false} BackwardFollowsLinks(metas: seq<BlockMeta>, order: seq<nat>, i: nat, fuel: nat)
    requires Linked(metas, order)
    requires i < |order| && fuel >= i + 1
    ensures Backward(metas, order[i], fuel) == Reverse(order[..i + 1])
    decreases i
  {
    if i == 0 {
      assert Backward(metas, metas[order[0]].prevValid, fuel - 1) == [];
    } else {
      BackwardFollowsLinks(metas, order, i - 1, fuel - 1);
      assert order[..i + 1][..i] == order[..i];
    }
  }

  /** The chain is what the walks compute: forward from `first_valid` it is
      `order`, backward from `last_valid` it is `order` reversed. */
  lemma ChainWalks(sb: Superblock, metas: seq<BlockMeta>, order: seq<nat>, fuel: nat)
    requires IsChain(sb, metas, order)
    requires fuel >= |order|
    ensures Forward(metas, sb.firstValid, fuel) == order
    ensures Backward(metas, sb.lastValid, fuel) == Reverse(order)
  {
    if |order| > 0 {
      ForwardFollowsLinks(metas, order, 0, fuel);
      BackwardFollowsLinks(metas, order, |order| - 1, fuel);
      assert order[..|order|] == order;
    }
  }

  /** The anchors and links determine the chain: two chains of the same
      superblock and metadata are the same sequence. */
  lemma ChainUnique(sb: Superblock, metas: seq<BlockMeta>, o1: seq<nat>, o2: seq<nat>)
    requires IsChain(sb, metas, o1) && IsChain(sb, metas, o2)
    ensures o1 == o2
  {
    ChainWalks(sb, metas, o1, |o1| + |o2|);
    ChainWalks(sb, metas, o2, |o1| + |o2|);
  }
}

=== FILE: cstring.dfy ===
/** The C string conventions the module relies on: `strnlen`, `strlen`, and
    the returned-length rule of `get_data`. */
module CString {
  import opened CTypes

  /** The lesser of the two bounds `strnlen` may look at. */
  function Bound(s: seq<byte>, max: nat): nat
  {
    if max < |s| then max else |s|
  }

  /** `strnlen(s, max)`: the index of the first zero byte among the first
      `max` bytes of `s`, or the number of bytes examined when there is none. */
  function StrNLen(s: seq<byte>, max: nat): (j: nat)
    ensures j <= Bound(s, max)
    ensures forall i :: 0 <= i < j ==> s[i] != 0
    ensures j < Bound(s, max) ==> s[j] == 0
    decreases max
  {
    if max == 0 || |s| == 0 || s[0] == 0 then 0
    else 1 + StrNLen(s[1..], max - 1)
  }

  /** `strlen(s)` for a buffer of which `s` is the readable part. */
  function StrLen(s: seq<byte>): nat
  {
    StrNLen(s, |s|)
  }

  /** True when `s` holds no zero byte, as the text a C string carries. */
  predicate NoZero(s: seq<byte>)
  {
    forall i :: 0 <= i < |s| ==> s[i] != 0
  }

  /** The byte count `get_data` reports for the `ret` bytes it read into
      `data`: one past the first zero byte (the terminator is counted), or
      all of them when none is zero. */
  function TerminatedLength(data: seq<byte>): (n: nat)
    ensures n <= |data|
    ensures forall i :: 0 <= i < n - 1 ==> data[i] != 0
    ensures n < |data| ==> 0 < n && data[n - 1] == 0
  {
    var j := StrNLen(data, |data|);
    if j < |data| then j + 1 else j
  }

  /** A terminator-free prefix is always delivered in full, and when a zero
      byte follows it the count stops right after that byte. */
  lemma TerminatedLengthOfText(data: seq<byte>, k: nat)
    requires k <= |data| && NoZero(data[..k])
    ensures k <= TerminatedLength(data)
    ensures k < |data| && data[k] == 0 ==> TerminatedLength(data) == k + 1
  {
  }
}

=== FILE: ctypes.dfy ===
/** C integer types of the kernel module and of the formatting tool.
    Dafny integers are unbounded, so every place where the C code narrows a
    value to `int` (32-bit, two's complement) or to `uint64_t` goes through
    one of the conversions below. */
module CTypes {

  const TWO_32: int := 0x1_0000_0000
  const TWO_64: int := 0x1_0000_0000_0000_0000
  const INT32_MIN: int := -0x8000_0000
  const INT32_MAX: int := 0x7FFF_FFFF

  type int32 = x: int | INT32_MIN <= x <= INT32_MAX
  type uint64 = x: int | 0 <= x < TWO_64
  type byte = x: int | 0 <= x < 256

  /** Narrowing to a C `int`: the value congruent to `x` modulo 2^32 in
      [INT32_MIN, INT32_MAX]. This is what gcc produces for an overflowing
      `int` product and for a `uint64_t` stored into an `int`. */
  function WrapInt32(x: int): (r: int32)
    ensures (x - r) % TWO_32 == 0
    ensures INT32_MIN <= x <= INT32_MAX ==> r == x
  {
    var m := x % TWO_32;
    if m > INT32_MAX then m - TWO_32 else m
  }

  function Min(a: int, b: int): int
  {
    if a <= b then a else b
  }

  /** Conversion of a (possibly negative) integer to `uint64_t`. */
  function ToUint64(x: int): (r: uint64)
    ensures (x - r) % TWO_64 == 0
    ensures 0 <= x < TWO_64 ==> r == x
  {
    x % TWO_64
  }
}

=== FILE: dev_functions.dfy ===
/** The three system calls and the device file operations (devFunctions.c).
    `put_data` and `invalidate_data` stop after their argument checks;
    `get_data` checks its arguments, consults the validity bit of the
    in-memory list node of the requested block, and reads the block's
    payload from the device image. */
module DevFunctions {
  import opened CTypes
  import opened FsDefs
  import opened Wrappers
  import opened CString
  import opened Device
  import opened Disk
  import opened FileOps

  /** `sys_put_data(source, size)`. */
  function PutData(mounted: bool, sourceIsNull: bool, size: nat): (r: int)
    ensures r == -ENODEV <==> !mounted
    ensures r == -EINVAL <==> mounted && (size > PAYLOAD_SIZE || size == 0 || sourceIsNull)
    ensures r == 0 <==> mounted && 0 < size <= PAYLOAD_SIZE && !sourceIsNull
  {
    if !mounted then -ENODEV
    else if size > PAYLOAD_SIZE then -EINVAL
    else if size == 0 || sourceIsNull then -EINVAL
    else 0
  }

  /** The request size of `get_data`, cut to one payload area. */
  function ClampSize(size: nat): (s: nat)
    ensures s <= PAYLOAD_SIZE && s <= size
    ensures s == size || s == PAYLOAD_SIZE
  {
    if size > PAYLOAD_SIZE then PAYLOAD_SIZE else size
  }

  /** The device byte offset `(2+offset)*DEFAULT_BLOCK_SIZE + METADATA_SIZE`
      as written: `int` arithmetic, wrapped to 32 bits, then widened to
      `loff_t`. (Wrapping each intermediate result gives the same value.) */
  function PayloadOffsetAsWritten(offset: int32): (r: int32)
    ensures offset >= 0 ==> (r - PayloadStart(offset)) % TWO_32 == 0
  {
    WrapInt32((FIRST_DATA_BLOCK + offset) * BLOCK_SIZE + METADATA_SIZE)
  }

  /** What `get_data` finds in the kernel: the mount flag, the superblock
      `get_superblock_info` returns (`None` for NULL), the `is_valid` bit of
      the list node reached after `offset` steps, whether a file descriptor
      and the device file can be obtained, the device bytes, and whether
      the device read succeeds. */
  datatype GetEnv = GetEnv(
    mounted: bool,
    sb: Option<Superblock>,
    nodeValid: bool,
    fdOk: bool,
    openOk: bool,
    dev: seq<byte>,
    ioOk: bool)

  /** The value `get_data` returns and the bytes it leaves in the destination. */
  datatype GetReply = GetReply(ret: int, dest: seq<byte>)

  predicate InRange(sb: Superblock, offset: int)
  {
    0 <= offset < sb.totalDataBlocks
  }

  /** The checks `get_data` makes before reading, in order; `None` when all pass. */
  function GetDataChecks(env: GetEnv, offset: int32, destIsNull: bool): (e: Option<NegErrno>)
    ensures e.None? <==>
              && env.mounted && !destIsNull && env.sb.Some? && InRange(env.sb.value, offset)
              && env.nodeValid && env.fdOk && env.openOk
  {
    if !env.mounted then Some(-ENODEV)
    else if destIsNull then Some(-EINVAL)
    else if env.sb.None? then Some(-EIO)
    else if !InRange(env.sb.value, offset) then Some(-EINVAL)
    else if !env.nodeValid then Some(-ENODATA)
    else if !env.fdOk then Some(-EIO)
    else if !env.openOk then Some(-EIO)
    else None
  }

  /** The read at device byte `pos` and the length reported for it. */
  function ReadFrom(env: GetEnv, pos: int, size: nat): GetReply
  {
    match KernelRead(env.dev, pos, ClampSize(size), env.ioOk)
    case ReadFailed => GetReply(-EIO, [])
    case ReadBytes(d) => GetReply(TerminatedLength(d), d)
  }

  /** `sys_get_data(offset, destination, size)`, with the byte offset
      computed without overflow. */
  function GetData(env: GetEnv, offset: int32, destIsNull: bool, size: nat): (r: GetReply)
    // the error decisions, in the order they are made
    ensures r.ret == -ENODEV <==> !env.mounted
    ensures env.mounted && destIsNull ==> r.ret == -EINVAL
    ensures env.mounted && !destIsNull && env.sb.None? ==> r.ret == -EIO
    ensures env.mounted && !destIsNull && env.sb.Some? && !InRange(env.sb.value, offset) ==> r.ret == -EINVAL
    ensures (env.mounted && !destIsNull && env.sb.Some? && InRange(env.sb.value, offset) && !env.nodeValid)
            ==> r.ret == -ENODATA
    ensures (env.mounted && !destIsNull && env.sb.Some? && InRange(env.sb.value, offset) && env.nodeValid && !env.fdOk)
            ==> r.ret == -EIO
    ensures (env.mounted && !destIsNull && env.sb.Some? && InRange(env.sb.value, offset) && env.nodeValid && env.fdOk
             && !env.openOk)
            ==> r.ret == -EIO
    ensures GetDataChecks(env, offset, destIsNull).None? && !env.ioOk ==> r.ret == -EIO
    ensures r.ret >= 0 <==> GetDataChecks(env, offset, destIsNull).None? && env.ioOk
    ensures r.ret < 0 ==> r.dest == []
    // a successful call reads at most one payload area, that of data block `offset` ...
    ensures r.ret >= 0 ==>
              && |r.dest| <= ClampSize(size)
              && PayloadStart(offset) + |r.dest| <= DataBlockStart(offset + 1)
              && (|r.dest| > 0 ==> PayloadStart(offset) + |r.dest| <= |env.dev|)
              && (forall i :: 0 <= i < |r.dest| ==> r.dest[i] == env.dev[PayloadStart(offset) + i])
              && (PayloadStart(offset) + ClampSize(size) <= |env.dev| ==> |r.dest| == ClampSize(size))
    // ... and reports the bytes up to and including the first zero byte, or all of them
    ensures r.ret >= 0 ==> r.ret == TerminatedLength(r.dest) && r.ret <= |r.dest|
  {
    match GetDataChecks(env, offset, destIsNull)
    case Some(e) => GetReply(e, [])
    case None => ReadFrom(env, PayloadStart(offset), size)
  }

  /** `sys_get_data` as written, with the 32-bit byte offset. Below block
      524286 it is the corrected call; from there up to block 1048574 the
      offset is negative and every read that passes the checks fails. */
  function GetDataAsWritten(env: GetEnv, offset: int32, destIsNull: bool, size: nat): (r: GetReply)
    ensures offset < 524286 ==> r == GetData(env, offset, destIsNull, size)
    ensures GetDataChecks(env, offset, destIsNull).None? && 524286 <= offset < 1048574 ==> r == GetReply(-EIO, [])
  {
    match GetDataChecks(env, offset, destIsNull)
    case Some(e) => GetReply(e, [])
    case None =>
      if offset < 524286 then
        PayloadOffsetAsWrittenAgrees(offset);
        ReadFrom(env, PayloadOffsetAsWritten(offset), size)
      else ReadFrom(env, PayloadOffsetAsWritten(offset), size)
  }

  /** Below block 524286 the `int` arithmetic does not overflow and the
      byte offset is the payload start of the block. */
  lemma PayloadOffsetAsWrittenAgrees(offset: int32)
    requires 0 <= offset < 524286
    ensures PayloadOffsetAsWritten(offset) == PayloadStart(offset)
  {
  }

  /** At block 1048574 the product wraps past 2^32 and the byte offset
      lands 4 bytes into the superblock. */
  lemma PayloadOffsetAsWrittenWraps()
    ensures PayloadOffsetAsWritten(1048574) == SB_BLOCK_NUMBER * BLOCK_SIZE + 4
    ensures PayloadStart(1048574) == 0x1_0000_0004
  {
  }

  /** So on a device with more than 1048574 data blocks, `get_data` as
      written answers a request for block 1048574 with bytes of the
      superblock, where the corrected call reads that block's payload. */
  lemma GetDataAsWrittenReadsSuperblock(env: GetEnv, size: nat)
    requires GetDataChecks(env, 1048574, false).None? && env.ioOk
    requires size > 0
    ensures var r := GetDataAsWritten(env, 1048574, false, size);
            && r.ret >= 0
            && (forall i :: 0 <= i < |r.dest| ==> r.dest[i] == env.dev[4 + i])
            && 4 + |r.dest| <= BLOCK_SIZE
    ensures var r := GetData(env, 1048574, false, size);
            forall i :: 0 <= i < |r.dest| ==> r.dest[i] == env.dev[PayloadStart(1048574) + i]
  {
    PayloadOffsetAsWrittenWraps();
  }

  /** `sys_invalidate_data(offset)`: argument checks only; nothing is
      invalidated. */
  function InvalidateData(mounted: bool, sb: Option<Superblock>, offset: int32): (r: int)
    ensures r == -ENODEV <==> !mounted
    ensures r == -EIO <==> mounted && sb.None?
    ensures r == -EINVAL <==> mounted && sb.Some? && !InRange(sb.value, offset)
    ensures r == 0 <==> mounted && sb.Some? && InRange(sb.value, offset)
  {
    if !mounted then -ENODEV
    else if sb.None? then -EIO
    else if !InRange(sb.value, offset) then -EINVAL
    else 0
  }

  /** The two calls that take a block index agree on it: `invalidate_data`
      rejects as out of range exactly the indices `get_data` rejects as out
      of range, and accepts every block `get_data` would go on to read. */
  lemma InvalidateAgreesWithGetData(env: GetEnv, offset: int32, size: nat)
    ensures (env.mounted && env.sb.Some?) ==>
              (InvalidateData(env.mounted, env.sb, offset) == -EINVAL <==> GetData(env, offset, false, size).ret == -EINVAL)
    ensures GetDataChecks(env, offset, false).None? ==> InvalidateData(env.mounted, env.sb, offset) == 0
  {
  }

  /** The size limit of `put_data` is the payload area `get_data` reads:
      a size `put_data` accepts is never cut by `get_data`'s clamp. */
  lemma PutSizeNeverClamped(sourceIsNull: bool, size: nat)
    requires PutData(true, sourceIsNull, size) == 0
    ensures ClampSize(size) == size
  {
  }

  /** `dev_read`: refused when not mounted, otherwise the read of
      `onefilefs_read`. */
  function DevRead(mounted: bool, fileSize: nat, off: nat, len: nat, dev: seq<byte>, ioOk: bool, userRoom: nat)
    : (r: ReadReply)
    ensures !mounted ==> r == ReadReply(-ENODEV, off, [])
    ensures mounted ==> r == FileRead(fileSize, off, len, dev, ioOk, userRoom)
  {
    if !mounted then ReadReply(-ENODEV, off, [])
    else FileRead(fileSize, off, len, dev, ioOk, userRoom)
  }

  /** `dev_open`: the device file may only be opened for reading. */
  function DevOpen(mounted: bool, writeMode: bool): (r: int)
    ensures r == -ENODEV <==> !mounted
    ensures r == -EPERM <==> mounted && writeMode
    ensures r == 0 <==> mounted && !writeMode
  {
    if !mounted then -ENODEV
    else if writeMode then -EPERM
    else 0
  }

  /** `dev_release`: succeeds exactly when the filesystem is mounted, so
      a device file that opened can be closed while the mount lasts. */
  function DevRelease(mounted: bool): (r: int)
    ensures r == 0 <==> mounted
    ensures r != 0 ==> r == -ENODEV
  {
    if !mounted then -ENODEV else 0
  }

  lemma OpenedDeviceReleases(mounted: bool, writeMode: bool)
    requires DevOpen(mounted, writeMode) == 0
    ensures DevRelease(mounted) == 0
  {
  }
}

=== FILE: device.dfy ===
/** The block device as the kernel code reaches it: `sb_bread` of one whole
    block, and `kernel_read` of a byte range through an opened file. The
    device is its byte contents; `ioOk` stands for every device or buffer
    failure the caller cannot see coming. */
module Device {
  import opened CTypes
  import opened FsDefs
  import opened Wrappers

  datatype ReadOutcome = ReadFailed | ReadBytes(data: seq<byte>)

  /** `sb_bread(sb, b)`: the `BLOCK_SIZE` bytes of device block `b`, or no
      buffer when the block lies past the device or the read fails. */
  function BlockRead(dev: seq<byte>, b: int, ioOk: bool): (r: Option<seq<byte>>)
    ensures r.Some? <==> ioOk && 0 <= b && (b + 1) * BLOCK_SIZE <= |dev|
    ensures r.Some? ==> |r.value| == BLOCK_SIZE
                        && forall i :: 0 <= i < BLOCK_SIZE ==> r.value[i] == dev[b * BLOCK_SIZE + i]
  {
    if ioOk && 0 <= b && (b + 1) * BLOCK_SIZE <= |dev|
    then Some(dev[b * BLOCK_SIZE .. (b + 1) * BLOCK_SIZE])
    else None
  }

  /** `kernel_read(f, buf, count, &pos)`: a negative position is refused;
      otherwise the bytes from `pos` up to `count` of them, fewer at the end
      of the device. */
  function KernelRead(dev: seq<byte>, pos: int, count: nat, ioOk: bool): (r: ReadOutcome)
    ensures r.ReadBytes? <==> ioOk && 0 <= pos
    ensures r.ReadBytes? ==> |r.data| <= count
    ensures r.ReadBytes? && pos + count <= |dev| ==> |r.data| == count
    ensures r.ReadBytes? && pos + count > |dev| ==> |r.data| == if pos < |dev| then |dev| - pos else 0
    ensures r.ReadBytes? ==> forall i :: 0 <= i < |r.data| ==> r.data[i] == dev[pos + i]
  {
    if !ioOk || pos < 0 then ReadFailed
    else if pos >= |dev| then ReadBytes([])
    else if pos + count <= |dev| then ReadBytes(dev[pos .. pos + count])
    else ReadBytes(dev[pos..])
  }
}

=== FILE: dir_ops.dfy ===
/** The root directory listing (filesystem/dir.c): `onefilefs_iterate`
    emits ".", ".." and "the-file" at cursor positions 0, 1 and 2. The
    kernel's `dir_emit` is an oracle: `answers[t]` is what its `t`-th call in
    one iteration returns, and a call past the end of `answers` fails. */
module DirOps {
  import opened CTypes
  import opened FsDefs

  datatype DirEntry = DirEntry(name: string, ino: nat)

  /** The listing in emission order, with the inode numbers passed to `dir_emit`. */
  const ENTRIES: seq<DirEntry> := [
    DirEntry(".", ROOT_INODE_NUMBER),
    DirEntry("..", 1),
    DirEntry(UNIQUE_FILE_NAME, FILE_INODE_NUMBER)]

  /** The state of one call: the cursor `pos` (`ctx->pos`), the entries
      accepted so far, whether the call has returned, and how many times
      `dir_emit` has been called. */
  datatype Cursor = Cursor(pos: int, emitted: seq<DirEntry>, stopped: bool, calls: nat)

  datatype IterReply = IterReply(pos: int, emitted: seq<DirEntry>, ret: int)

  function Answer(answers: seq<bool>, t: nat): bool
  {
    t < |answers| && answers[t]
  }

  /** The block of the C function that handles position `i`: when the
      cursor is there, offer entry `i`; on success advance, on failure
      return. */
  function Stage(c: Cursor, i: nat, answers: seq<bool>): Cursor
    requires i < |ENTRIES|
  {
    if c.stopped || c.pos != i then c
    else if Answer(answers, c.calls) then Cursor(c.pos + 1, c.emitted + [ENTRIES[i]], false, c.calls + 1)
    else Cursor(c.pos, c.emitted, true, c.calls + 1)
  }

  /** The number of successes at the head of `answers`. */
  function LeadingAccepts(answers: seq<bool>): (k: nat)
    ensures k <= |answers|
    ensures forall t :: 0 <= t < k ==> answers[t]
    ensures k < |answers| ==> !answers[k]
  {
    if |answers| == 0 || !answers[0] then 0 else 1 + LeadingAccepts(answers[1..])
  }

  /** `onefilefs_iterate` starting at cursor `pos`. */
  function Iterate(pos: int, answers: seq<bool>): (r: IterReply)
    ensures r.ret == 0
    // a cursor outside 0 .. 2 emits nothing and stays where it is
    ensures pos < 0 || pos >= 3 ==> r.pos == pos && r.emitted == []
    // otherwise the cursor advances once per accepted entry, up to 3, and
    // the accepted entries are exactly the listing between the two positions
    ensures 0 <= pos < 3 ==>
              && r.pos == Min(3, pos + LeadingAccepts(answers))
              && pos <= r.pos <= 3
              && |r.emitted| == r.pos - pos
              && forall i :: 0 <= i < |r.emitted| ==> r.emitted[i] == ENTRIES[pos + i]
  {
    if pos >= 3 then IterReply(pos, [], 0)
    else
      var c := Stage(Stage(Stage(Cursor(pos, [], false, 0), 0, answers), 1, answers), 2, answers);
      IterReply(c.pos, c.emitted, 0)
  }

  /** A call in which every offer is accepted finishes the listing. */
  lemma IterateCompletes(pos: int, answers: seq<bool>)
    requires 0 <= pos <= 3
    requires |answers| >= 3 - pos
    requires forall t :: 0 <= t < |answers| ==> answers[t]
    ensures Iterate(pos, answers).pos == 3
    ensures Iterate(pos, answers).emitted == ENTRIES[pos..]
  {
  }

  /** A failed offer stops the call without moving the cursor: with the
      first offer refused, nothing is emitted. */
  lemma IterateRefused(pos: int, answers: seq<bool>)
    requires |answers| == 0 || !answers[0]
    ensures Iterate(pos, answers).pos == pos
    ensures Iterate(pos, answers).emitted == []
  {
  }

  /** Resuming never repeats an entry: two successive calls, the second
      starting where the first stopped, emit a contiguous stretch of the
      listing. */
  lemma IterateResumes(pos: int, answers1: seq<bool>, answers2: seq<bool>)
    requires 0 <= pos <= 3
    ensures var r1 := Iterate(pos, answers1);
            var r2 := Iterate(r1.pos, answers2);
            && pos <= r1.pos <= r2.pos <= 3
            && r1.emitted + r2.emitted == ENTRIES[pos..r2.pos]
  {
    var r1 := Iterate(pos, answers1);
    var r2 := Iterate(r1.pos, answers2);
    assert ENTRIES[pos..r1.pos] + ENTRIES[r1.pos..r2.pos] == ENTRIES[pos..r2.pos];
  }
}

=== FILE: disk.dfy ===
/** The on-disk records of the filesystem image, as the formatting tool fills
    them in: block 0 holds the superblock, block 1 the inode of the single
    file, and blocks 2 .. n+1 the n data blocks, each a metadata word followed
    by payload and padding. The bit layout of the metadata word is not
    modelled: only the three values it carries are. */
module Disk {
  import opened CTypes
  import opened FsDefs

  datatype Superblock = Superblock(
    version: uint64,
    magic: uint64,
    blockSize: uint64,
    totalDataBlocks: uint64,
    firstValid: int,
    lastValid: int)

  datatype FileInode = FileInode(inodeNo: uint64, fileSize: uint64)

  /** Per-block metadata: the neighbours in the validity chain (`NONE` for
      none) and the validity bit. */
  datatype BlockMeta = BlockMeta(prevValid: int, nextValid: int, isValid: bool)

  /** A data block as written: metadata, then the payload bytes, then
      `padding` bytes of unspecified content. */
  datatype DataBlock = DataBlock(meta: BlockMeta, payload: seq<byte>, padding: nat)

  datatype Image = Image(sb: Superblock, inode: FileInode, blocks: seq<DataBlock>)

  /** Bytes a data block occupies on the device. */
  function BlockBytes(b: DataBlock): nat
  {
    METADATA_SIZE + |b.payload| + b.padding
  }

  function Metas(blocks: seq<DataBlock>): (m: seq<BlockMeta>)
    ensures |m| == |blocks|
    ensures forall i :: 0 <= i < |blocks| ==> m[i] == blocks[i].meta
  {
    seq(|blocks|, i requires 0 <= i < |blocks| => blocks[i].meta)
  }

  /** Device byte at which data block `i` starts. */
  function DataBlockStart(i: nat): nat
  {
    (FIRST_DATA_BLOCK + i) * BLOCK_SIZE
  }

  /** Device byte at which the payload of data block `i` starts. */
  function PayloadStart(i: nat): nat
  {
    DataBlockStart(i) + METADATA_SIZE
  }

  /** The device `dev` carries the image `img`: it is long enough for all
      data blocks and each block's payload sits right after its metadata.
      Metadata bytes and padding bytes are left unconstrained. */
  ghost predicate Holds(dev: seq<byte>, img: Image)
  {
    && |dev| >= DataBlockStart(|img.blocks|)
    && forall i :: 0 <= i < |img.blocks| ==>
         && PayloadStart(i) + |img.blocks[i].payload| <= |dev|
         && dev[PayloadStart(i) .. PayloadStart(i) + |img.blocks[i].payload|] == img.blocks[i].payload
  }
}

=== FILE: file_ops.dfy ===
/** The file operations of the single file (filesystem/file.c): the
    block-bounded read shared by `onefilefs_read` and `dev_read`, and the
    name lookup in the root directory. */
module FileOps {
  import opened CTypes
  import opened FsDefs
  import opened Wrappers
  import opened Device
  import opened Disk

  /** What a read of `len` bytes at file position `off` touches: nothing at
      or past the end of the file, otherwise `count` bytes starting
      `inBlock` bytes into device block `block`. */
  datatype ReadPlan = EndOfFile | Plan(count: nat, inBlock: nat, block: nat)

  /** The offset and length arithmetic of a read: the length is cut at the
      end of the file and then at the end of the block holding `off`. */
  function PlanRead(fileSize: nat, off: nat, len: nat): (p: ReadPlan)
    ensures p.EndOfFile? <==> off >= fileSize
    ensures p.Plan? ==>
              && p.inBlock == off % BLOCK_SIZE
              && p.block == off / BLOCK_SIZE + FIRST_DATA_BLOCK
              // the count never passes the request, the end of the file or the end of the block ...
              && p.count <= len
              && off + p.count <= fileSize
              && p.inBlock + p.count <= BLOCK_SIZE
              // ... and is cut only by one of them
              && (p.count == len || off + p.count == fileSize || p.inBlock + p.count == BLOCK_SIZE)
  {
    if off >= fileSize then EndOfFile
    else
      var len1 := if off + len > fileSize then fileSize - off else len;
      var inBlock := off % BLOCK_SIZE;
      var len2 := if inBlock + len1 > BLOCK_SIZE then BLOCK_SIZE - inBlock else len1;
      Plan(len2, inBlock, off / BLOCK_SIZE + FIRST_DATA_BLOCK)
  }

  /** The outcome of a read: the value returned (bytes copied, or a negated
      error number), the new file position, and the bytes delivered. */
  datatype ReadReply = ReadReply(ret: int, newOff: nat, data: seq<byte>)

  /** The read of `onefilefs_read`: plan, fetch the block with `sb_bread`,
      copy to the user buffer, advance the position by what was copied.
      `userRoom` is how many bytes `copy_to_user` manages to copy (it copies
      a prefix and reports the rest as not copied). */
  function FileRead(fileSize: nat, off: nat, len: nat, dev: seq<byte>, ioOk: bool, userRoom: nat)
    : (r: ReadReply)
    ensures off >= fileSize ==> r == ReadReply(0, off, [])
    ensures r.ret < 0 ==> r.ret == -EIO && r.newOff == off && r.data == []
    ensures r.ret < 0 <==> off < fileSize && BlockRead(dev, off / BLOCK_SIZE + FIRST_DATA_BLOCK, ioOk).None?
    // what is copied is the planned count, or what the user buffer takes if less
    ensures r.ret >= 0 && off < fileSize ==>
              r.ret == Min(PlanRead(fileSize, off, len).count, userRoom)
    ensures r.ret >= 0 ==> |r.data| == r.ret && r.newOff == off + r.ret
    ensures r.ret >= 0 ==> r.ret <= len && r.ret <= userRoom
    ensures r.ret > 0 ==> r.newOff <= fileSize && off % BLOCK_SIZE + r.ret <= BLOCK_SIZE
    // the bytes delivered are the file's bytes `off ..`, the file being laid
    // out contiguously from the first data block
    ensures r.ret > 0 ==> DataBlockStart(0) + off + r.ret <= |dev|
    ensures r.ret > 0 ==> forall i :: 0 <= i < r.ret ==> r.data[i] == dev[DataBlockStart(0) + off + i]
  {
    match PlanRead(fileSize, off, len)
    case EndOfFile => ReadReply(0, off, [])
    case Plan(count, inBlock, block) =>
      match BlockRead(dev, block, ioOk)
      case None => ReadReply(-EIO, off, [])
      case Some(b) =>
        var copied := Min(count, userRoom);
        assert block * BLOCK_SIZE + inBlock == DataBlockStart(0) + off;
        ReadReply(copied, off + copied, b[inBlock .. inBlock + copied])
  }

  /** The device block a read at `off` touches is a data block of the file:
      one of blocks 2 .. n+1 when the file spans `n` blocks. */
  lemma ReadStaysInDataBlocks(n: nat, off: nat, len: nat)
    requires off < n * BLOCK_SIZE
    ensures PlanRead(n * BLOCK_SIZE, off, len).Plan?
    ensures FIRST_DATA_BLOCK <= PlanRead(n * BLOCK_SIZE, off, len).block <= n + 1
  {
  }

  /** Successive reads never skip or repeat a byte: a read continuing at
      the position the previous one left delivers the file bytes right
      after the previous ones. */
  lemma ReadsContinue(fileSize: nat, off: nat, len1: nat, len2: nat, dev: seq<byte>, ioOk: bool, room1: nat, room2: nat)
    requires FileRead(fileSize, off, len1, dev, ioOk, room1).ret > 0
    ensures var r1 := FileRead(fileSize, off, len1, dev, ioOk, room1);
            var r2 := FileRead(fileSize, r1.newOff, len2, dev, ioOk, room2);
            r2.ret > 0 ==>
              forall i :: 0 <= i < r1.ret + r2.ret ==>
                (r1.data + r2.data)[i] == dev[DataBlockStart(0) + off + i]
  {
  }

  /** What a lookup hands back to VFS: no inode for the name, the dentry
      still unbound (no inode attached, no extra reference), the dentry bound
      to the file's inode, or an error. */
  datatype LookupReply = Negative | Unbound | Positive | LookupErr(errno: int)

  /** `onefilefs_lookup` with the cached branch corrected: only the name
      "the-file" resolves. For it, a failed inode allocation gives -ENOMEM;
      an inode already cached is bound to the dentry just as a new one is;
      a new inode needs its inode block to be readable (-EIO when it is not). */
  function Lookup(name: string, inodeAllocOk: bool, cached: bool, inodeBlockOk: bool): (r: LookupReply)
    ensures r.Negative? <==> name != UNIQUE_FILE_NAME
    ensures r.Positive? <==> name == UNIQUE_FILE_NAME && inodeAllocOk && (cached || inodeBlockOk)
    ensures !r.Unbound?
    ensures r.LookupErr? ==> r.errno in {-ENOMEM, -EIO}
    // -ENOMEM when no inode can be had, -EIO when a new inode's block cannot be read
    ensures r == LookupErr(-ENOMEM) <==> name == UNIQUE_FILE_NAME && !inodeAllocOk
    ensures r == LookupErr(-EIO) <==> name == UNIQUE_FILE_NAME && inodeAllocOk && !cached && !inodeBlockOk
  {
    if name != UNIQUE_FILE_NAME then Negative
    else if !inodeAllocOk then LookupErr(-ENOMEM)
    else if cached then Positive
    else if !inodeBlockOk then LookupErr(-EIO)
    else Positive
  }

  /** `onefilefs_lookup` as written: when the inode is already cached the
      dentry is returned before `d_add` and `dget`, so it comes back
      unbound. Every other outcome is that of the corrected lookup. */
  function LookupAsWritten(name: string, inodeAllocOk: bool, cached: bool, inodeBlockOk: bool): (r: LookupReply)
    ensures r.Unbound? <==> name == UNIQUE_FILE_NAME && inodeAllocOk && cached
    ensures r.Positive? <==> name == UNIQUE_FILE_NAME && inodeAllocOk && !cached && inodeBlockOk
    ensures !r.Unbound? ==> r == Lookup(name, inodeAllocOk, cached, inodeBlockOk)
    ensures r.Unbound? ==> Lookup(name, inodeAllocOk, cached, inodeBlockOk).Positive?
  {
    if name != UNIQUE_FILE_NAME then Negative
    else if !inodeAllocOk then LookupErr(-ENOMEM)
    else if cached then Unbound
    else if !inodeBlockOk then LookupErr(-EIO)
    else Positive
  }

  /** The discrepancy: a second lookup of "the-file" after its dentry was
      evicted while its inode stayed cached gets an unbound dentry from the
      code as written, where the corrected lookup binds it. */
  lemma CachedLookupUnbound(inodeBlockOk: bool)
    ensures LookupAsWritten(UNIQUE_FILE_NAME, true, true, inodeBlockOk) == Unbound
    ensures Lookup(UNIQUE_FILE_NAME, true, true, inodeBlockOk) == Positive
  {
  }
}

=== FILE: fs_defs.dfy ===
/** Constants of the single-file filesystem (filesystem/singlefilefs.h) and
    the Linux error numbers its operations return (as positive values; the
    operations return their negation). */
module FsDefs {

  const MAGIC: nat := 0x4242_4242
  const BLOCK_SIZE: nat := 4096
  const SB_BLOCK_NUMBER: nat := 0
  /** Device block holding data block 0: the superblock and the file inode precede it. */
  const FIRST_DATA_BLOCK: nat := 2
  const ROOT_INODE_NUMBER: nat := 10
  const FILE_INODE_NUMBER: nat := 1
  const UNIQUE_FILE_NAME: string := "the-file"
  /** Bytes of metadata at the head of every data block. */
  const METADATA_SIZE: nat := 4
  /** Bytes of payload a data block can hold. */
  const PAYLOAD_SIZE: nat := BLOCK_SIZE - METADATA_SIZE

  /** "none" in the `first_valid`, `last_valid`, `prev_valid` and `next_valid` fields. */
  const NONE: int := -1

  /** A negated error number, as the operations return it. */
  type NegErrno = e: int | e < 0 witness -1

  const EPERM: int := 1
  const EIO: int := 5
  const EBADF: int := 9
  const ENOMEM: int := 12
  const EEXIST: int := 17
  const ENODEV: int := 19
  const EINVAL: int := 22
  const ENODATA: int := 61
}

=== FILE: image_props.dfy ===
/** Properties that tie the formatter to the kernel side, and the kernel
    operations to each other: a freshly formatted image mounts, its seeded
    blocks read back through `get_data`, reads of the file stay on the
    device, and the directory lists exactly the name the lookup resolves. */
module ImageProps {
  import opened CTypes
  import opened FsDefs
  import opened Wrappers
  import opened CString
  import opened Disk
  import opened MakeFs
  import opened Mount
  import opened FileOps
  import opened DevFunctions
  import opened DirOps

  /** A formatted image passes every check of `fill_super`: its file size
      is `n` blocks, which is not more than the superblock's count, and the
      magic number matches. */
  lemma FormattedImageMounts(argCount: int, n: int32, body: seq<seq<byte>>, version: uint64, deviceOpens: bool, sbInfoSize: nat)
    requires Format(argCount, n, body, version, deviceOpens).Success?
    requires sbInfoSize <= BLOCK_SIZE
    ensures var img := Format(argCount, n, body, version, deviceOpens).value;
            && img.inode.fileSize == n * BLOCK_SIZE
            && MountedBlocks(img.inode) == ExpectedBlocks(img.sb) == n
            && FillSuper(sbInfoSize, Some(img.sb), Some(img.inode)) == FillOk
            && FillSuperAsWritten(sbInfoSize, Some(img.sb), Some(img.inode)) == FillOk
  {
    var img := Format(argCount, n, body, version, deviceOpens).value;
    assert img.inode.fileSize / BLOCK_SIZE == n;
  }

  /** End to end: mounting a formatted image on an unmounted filesystem,
      with `mount_bdev` passing on what `fill_super` returns, succeeds and
      raises the flag; an unmount with no operation in flight then releases
      the superblock and clears it again. */
  lemma FormattedImageMountsAndUnmounts(argCount: int, n: int32, body: seq<seq<byte>>, version: uint64, deviceOpens: bool,
                                        sbInfoSize: nat, s: FsState)
    requires Format(argCount, n, body, version, deviceOpens).Success?
    requires sbInfoSize <= BLOCK_SIZE
    requires s.isMounted == 0 && s.usages == 0
    ensures var img := Format(argCount, n, body, version, deviceOpens).value;
            var m := MountFs(s, true, BdevOf(FillSuper(sbInfoSize, Some(img.sb), Some(img.inode))));
            && m == MountReply(FsState(1, 0), 0)
            && KillSuperblock(m.state) == KillReply(s, true)
  {
    FormattedImageMounts(argCount, n, body, version, deviceOpens, sbInfoSize);
  }

  /** The overflowing size the formatter as written records still passes
      the block-count check of `fill_super`, so the wrong size goes
      unnoticed at mount time: the wrapped size is a multiple of 4096 that
      agrees with n*4096 modulo 2^32, so its block count, narrowed to `int`,
      is n less a non-negative multiple of 2^20. */
  lemma AsWrittenSizePassesBlockCheck(n: int32)
    requires n > 0
    ensures MountedBlocks(FileInode(FILE_INODE_NUMBER, FileSizeAsWritten(n))) <= n
  {
  }

  /** Round trip from the formatter to `get_data`: reading a seeded block
      of a device that carries the image, with a request at least as long
      as the entry, delivers the entry's text first and reports at least
      its length. The list node's validity bit is the block's metadata bit. */
  lemma SeededBlockReadsBack(argCount: int, n: int32, body: seq<seq<byte>>, version: uint64, deviceOpens: bool,
                             dev: seq<byte>, i: int32, size: nat)
    requires Format(argCount, n, body, version, deviceOpens).Success?
    requires Holds(dev, Format(argCount, n, body, version, deviceOpens).value)
    requires 0 <= i < |body|
    requires size >= StrLen(body[i])
    ensures var img := Format(argCount, n, body, version, deviceOpens).value;
            var text := img.blocks[i].payload;
            var r := GetData(GetEnv(true, Some(img.sb), img.blocks[i].meta.isValid, true, true, dev, true), i, false, size);
            && text == SeedText(body[i])
            && |text| <= |r.dest| && r.dest[..|text|] == text
            && |text| <= r.ret <= |r.dest|
  {
    var img := Format(argCount, n, body, version, deviceOpens).value;
    var text := img.blocks[i].payload;
    var env := GetEnv(true, Some(img.sb), img.blocks[i].meta.isValid, true, true, dev, true);
    var r := GetData(env, i, false, size);
    assert DataBlockStart(i + 1) <= DataBlockStart(|img.blocks|);
    assert PayloadStart(i) + ClampSize(size) <= |dev|;
    assert |r.dest| == ClampSize(size);
    assert |text| <= |r.dest|;
    assert dev[PayloadStart(i) .. PayloadStart(i) + |text|] == text;
    assert r.dest[..|text|] == text;
    TerminatedLengthOfText(r.dest, |text|);
  }

  /** On a formatted image an unseeded block is refused with -ENODATA and a
      block past the last one with -EINVAL. */
  lemma UnseededBlockRefused(argCount: int, n: int32, body: seq<seq<byte>>, version: uint64, deviceOpens: bool,
                             dev: seq<byte>, i: int32, size: nat, nodeValid: bool)
    requires Format(argCount, n, body, version, deviceOpens).Success?
    requires |body| <= i
    ensures var img := Format(argCount, n, body, version, deviceOpens).value;
            i < n ==>
              GetData(GetEnv(true, Some(img.sb), img.blocks[i].meta.isValid, true, true, dev, true), i, false, size).ret
              == -ENODATA
    ensures var img := Format(argCount, n, body, version, deviceOpens).value;
            i >= n ==>
              GetData(GetEnv(true, Some(img.sb), nodeValid, true, true, dev, true), i, false, size).ret == -EINVAL
  {
  }

  /** Reading the file of a device that carries a formatted image never
      fails below the file size: the block it touches is one of the image's
      data blocks, which the device holds. */
  lemma FileReadOnFormattedDevice(argCount: int, n: int32, body: seq<seq<byte>>, version: uint64, deviceOpens: bool,
                                  dev: seq<byte>, off: nat, len: nat, userRoom: nat)
    requires Format(argCount, n, body, version, deviceOpens).Success?
    requires Holds(dev, Format(argCount, n, body, version, deviceOpens).value)
    requires off < n * BLOCK_SIZE && len > 0 && userRoom > 0
    ensures var img := Format(argCount, n, body, version, deviceOpens).value;
            var p := PlanRead(img.inode.fileSize, off, len);
            var r := FileRead(img.inode.fileSize, off, len, dev, true, userRoom);
            && p.Plan? && FIRST_DATA_BLOCK <= p.block <= n + 1
            && r.ret > 0 && r.newOff <= n * BLOCK_SIZE
  {
    var img := Format(argCount, n, body, version, deviceOpens).value;
    ReadStaysInDataBlocks(n, off, len);
    var p := PlanRead(img.inode.fileSize, off, len);
    assert (p.block + 1) * BLOCK_SIZE <= DataBlockStart(n);
  }

  /** The listing and the lookup agree: every entry the root directory
      lists apart from "." and ".." is a name the lookup resolves, and it
      is listed with the inode number of the file; no other name resolves.
      The code as written binds the name only when its inode was not yet
      cached (see `FileOps.LookupAsWritten`). */
  lemma ListedNamesResolve(inodeAllocOk: bool, cached: bool, inodeBlockOk: bool)
    requires inodeAllocOk && (cached || inodeBlockOk)
    ensures forall i :: 0 <= i < |ENTRIES| && ENTRIES[i].name != "." && ENTRIES[i].name != ".." ==>
              && Lookup(ENTRIES[i].name, inodeAllocOk, cached, inodeBlockOk).Positive?
              && ENTRIES[i].ino == FILE_INODE_NUMBER
              && (!cached ==> LookupAsWritten(ENTRIES[i].name, inodeAllocOk, cached, inodeBlockOk).Positive?)
    ensures forall name :: Lookup(name, inodeAllocOk, cached, inodeBlockOk).Positive? ==>
              exists i :: 0 <= i < |ENTRIES| && ENTRIES[i].name == name
  {
    assert ENTRIES[2].name == UNIQUE_FILE_NAME;
  }
}

=== FILE: makefs.dfy ===
/** The formatting tool (filesystem/singlefilemakefs.c): it checks its
    arguments, opens the device and writes the superblock, the file inode and
    `n` data blocks, the first `k` of which are seeded with the default file
    body and linked into the validity chain. Device writes are assumed to
    complete; the outcome is the image written or the reason for stopping. */
module MakeFs {
  import opened CTypes
  import opened FsDefs
  import opened Wrappers
  import opened CString
  import opened Disk
  import opened Chain

  datatype FormatError =
    | BadUsage                 // wrong number of command-line arguments
    | BadBlockCount            // `num_data_blocks <= 0`
    | TooManySeeded            // more seeded entries than data blocks
    | OpenFailed               // the device could not be opened
    | PayloadTooLarge(index: nat)  // seeded entry `index` does not fit a block

  /** The bytes the tool writes for a seeded entry: its C string text. */
  function SeedText(s: seq<byte>): (t: seq<byte>)
    ensures NoZero(t)
    ensures t <= s
    // the text stops at the first zero byte, or at the end of the entry
    ensures |t| == |s| || s[|t|] == 0
  {
    s[..StrLen(s)]
  }

  predicate Fits(s: seq<byte>)
  {
    StrLen(s) <= PAYLOAD_SIZE
  }

  /** The first seeded entry at or after `from` whose text overflows a
      block's payload area. */
  function FirstOversized(body: seq<seq<byte>>, from: nat): (r: Option<nat>)
    requires from <= |body|
    ensures r.Some? ==> from <= r.value < |body| && !Fits(body[r.value])
                        && forall j :: from <= j < r.value ==> Fits(body[j])
    ensures r.None? ==> forall j :: from <= j < |body| ==> Fits(body[j])
    decreases |body| - from
  {
    if from == |body| then None
    else if !Fits(body[from]) then Some(from)
    else FirstOversized(body, from + 1)
  }

  /** The file size the formatter records, computed without overflow. */
  function FileSize(n: int32): (size: uint64)
    requires n > 0
    ensures size / BLOCK_SIZE == n && size % BLOCK_SIZE == 0
  {
    n * BLOCK_SIZE
  }

  /** The file size as the C expression `num_data_blocks * DEFAULT_BLOCK_SIZE`
      computes it: an `int` product, wrapped to 32 bits and then widened to
      the `uint64_t` field. */
  function FileSizeAsWritten(n: int32): (r: uint64)
    ensures (r - n * BLOCK_SIZE) % TWO_32 == 0
    ensures r % BLOCK_SIZE == 0
  {
    ToUint64(WrapInt32(n * BLOCK_SIZE))
  }

  function SeededMeta(i: nat, k: nat): BlockMeta
  {
    BlockMeta(i - 1, if i == k - 1 then NONE else i + 1, true)
  }

  const UNSEEDED_META: BlockMeta := BlockMeta(NONE, NONE, false)

  function DataBlocks(n: nat, body: seq<seq<byte>>): (blocks: seq<DataBlock>)
    requires |body| <= n
    requires forall j :: 0 <= j < |body| ==> Fits(body[j])
    ensures |blocks| == n
  {
    seq(n, i requires 0 <= i < n =>
      if i < |body| then
        assert Fits(body[i]);
        DataBlock(SeededMeta(i, |body|), SeedText(body[i]), PAYLOAD_SIZE - StrLen(body[i]))
      else DataBlock(UNSEEDED_META, [], PAYLOAD_SIZE))
  }

  /** The formatting tool run as `mkfs <device> <n>` (`argCount` counts the
      program name) with seeded entries `body` and file-system version
      `version`. */
  function Format(argCount: int, n: int32, body: seq<seq<byte>>, version: uint64, deviceOpens: bool)
    : (r: Result<Image, FormatError>)
    // the checks, in the order they are made; the first two come before the device is opened
    ensures r == Failure(BadUsage) <==> argCount != 3
    ensures r == Failure(BadBlockCount) <==> argCount == 3 && n <= 0
    ensures r == Failure(TooManySeeded) <==> argCount == 3 && n > 0 && |body| > n
    ensures r == Failure(OpenFailed) <==> argCount == 3 && 0 < n && |body| <= n && !deviceOpens
    ensures r.Failure? && r.error.PayloadTooLarge? ==>
              && r.error.index < |body| && StrLen(body[r.error.index]) > PAYLOAD_SIZE
              && forall j :: 0 <= j < r.error.index ==> StrLen(body[j]) <= PAYLOAD_SIZE
    ensures r.Success? <==>
              && argCount == 3 && 0 < n && |body| <= n && deviceOpens
              && forall j :: 0 <= j < |body| ==> StrLen(body[j]) <= PAYLOAD_SIZE
    // the superblock and the file inode
    ensures r.Success? ==>
              && |r.value.blocks| == n
              && r.value.sb == Superblock(version, MAGIC, BLOCK_SIZE, n, 0, |body| - 1)
              && r.value.inode.inodeNo == FILE_INODE_NUMBER
              && r.value.inode.fileSize == n * BLOCK_SIZE
    // seeded blocks: linked to their neighbours, valid, carrying the entry's text
    ensures r.Success? ==> forall i :: 0 <= i < |body| ==>
              && r.value.blocks[i].meta.prevValid == i - 1
              && r.value.blocks[i].meta.nextValid == (if i == |body| - 1 then NONE else i + 1)
              && r.value.blocks[i].meta.isValid
              && r.value.blocks[i].payload == body[i][..StrLen(body[i])]
    // the remaining blocks: invalid, unlinked, empty
    ensures r.Success? ==> forall i :: |body| <= i < n ==>
              Detached(r.value.blocks[i].meta) && r.value.blocks[i].payload == []
    // every data block fills exactly one device block
    ensures r.Success? ==> forall i :: 0 <= i < n ==> BlockBytes(r.value.blocks[i]) == BLOCK_SIZE
  {
    if argCount != 3 then Failure(BadUsage)
    else if n <= 0 then Failure(BadBlockCount)
    else if |body| > n then Failure(TooManySeeded)
    else if !deviceOpens then Failure(OpenFailed)
    else match FirstOversized(body, 0)
      case Some(i) => Failure(PayloadTooLarge(i))
      case None =>
        var sb := Superblock(version, MAGIC, BLOCK_SIZE, n, 0, |body| - 1);
        Success(Image(sb, FileInode(FILE_INODE_NUMBER, FileSize(n)), DataBlocks(n, body)))
  }

  /** The argument checks do not depend on the device: a bad block count
      or too many seeded entries is reported whether or not the device can
      be opened. */
  lemma RejectsBeforeOpen(n: int32, body: seq<seq<byte>>, version: uint64)
    requires n <= 0 || |body| > n
    ensures Format(3, n, body, version, true) == Format(3, n, body, version, false)
    ensures Format(3, n, body, version, true).Failure?
  {
  }

  function Range(k: nat): (s: seq<nat>)
    ensures |s| == k && forall i :: 0 <= i < k ==> s[i] == i
  {
    seq(k, i requires 0 <= i < k => i)
  }

  /** A freshly formatted image with at least one seeded entry carries a
      well formed validity chain: blocks 0, 1, ..., k-1 in that order. */
  lemma {:induction false} FormatChainWellFormed(argCount: int, n: int32, body: seq<seq<byte>>, version: uint64, deviceOpens: bool)
    requires Format(argCount, n, body, version, deviceOpens).Success?
    requires |body| >= 1
    ensures var img := Format(argCount, n, body, version, deviceOpens).value;
            IsChain(img.sb, Metas(img.blocks), Range(|body|))
  {
    var img := Format(argCount, n, body, version, deviceOpens).value;
    var metas := Metas(img.blocks);
    var order := Range(|body|);
    forall x | 0 <= x < |metas| && metas[x].isValid
      ensures x in order
    {
      assert x < |body|;
      assert order[x] == x;
    }
  }

  /** On a freshly formatted image the chain walks, bounded by the number
      of data blocks, visit 0, 1, ..., k-1 forwards
      from `first_valid` and k-1, ..., 0 backwards from `last_valid`. */
  lemma FormatChainWalks(argCount: int, n: int32, body: seq<seq<byte>>, version: uint64, deviceOpens: bool)
    requires Format(argCount, n, body, version, deviceOpens).Success?
    requires |body| >= 1
    ensures var img := Format(argCount, n, body, version, deviceOpens).value;
            && Forward(Metas(img.blocks), img.sb.firstValid, n) == Range(|body|)
            && Backward(Metas(img.blocks), img.sb.lastValid, n) == Reverse(Range(|body|))
            && Forward(Metas(img.blocks), img.sb.firstValid, n)[|body| - 1] == img.sb.lastValid
  {
    var img := Format(argCount, n, body, version, deviceOpens).value;
    FormatChainWellFormed(argCount, n, body, version, deviceOpens);
    ChainWalks(img.sb, Metas(img.blocks), Range(|body|), n);
  }

  /** Below 2^19 data blocks the `int` product does not overflow and the
      recorded size is the intended one. */
  lemma FileSizeAsWrittenBelowOverflow(n: int32)
    requires 0 < n < 0x8_0000
    ensures FileSizeAsWritten(n) == FileSize(n)
  {
  }

  /** With 2^20 data blocks (a 4 GiB device) the product wraps to zero: the
      formatter as written records an empty file. */
  lemma FileSizeAsWrittenOverflows()
    ensures FileSizeAsWritten(0x10_0000) == 0
    ensures FileSize(0x10_0000) == 0x1_0000_0000
  {
  }
}

=== FILE: mount.dfy ===
/** Mounting and unmounting (filesystem/singlefilefs_src.c): the superblock
    checks of `singlefilefs_fill_super`, and the `is_mounted` flag that
    `singlefilefs_mount` and `singlefilefs_kill_superblock` flip with
    compare-and-swap, sequentially. The VFS side (inode and dentry setup,
    `mount_bdev`, `kill_block_super`) is reduced to outcomes. */
module Mount {
  import opened CTypes
  import opened FsDefs
  import opened Wrappers
  import opened Disk

  /** Outcome of `fill_super`; `NullDeref` is a dereference of a NULL
      buffer head. */
  datatype FillOutcome = FillOk | FillErr(errno: NegErrno) | NullDeref

  /** `num_mounted_blocks`: the file size in blocks, stored into an `int`. */
  function MountedBlocks(inode: FileInode): (r: int32)
    ensures inode.fileSize / BLOCK_SIZE <= INT32_MAX ==> r == inode.fileSize / BLOCK_SIZE
    ensures (r - inode.fileSize / BLOCK_SIZE) % TWO_32 == 0
  {
    WrapInt32(inode.fileSize / BLOCK_SIZE)
  }

  /** `num_expected_blocks`: the superblock's data block count, stored into an `int`. */
  function ExpectedBlocks(sb: Superblock): (r: int32)
    ensures sb.totalDataBlocks <= INT32_MAX ==> r == sb.totalDataBlocks
    ensures (r - sb.totalDataBlocks) % TWO_32 == 0
  {
    WrapInt32(sb.totalDataBlocks)
  }

  /** `singlefilefs_fill_super` as written. `sbInfoSize` is
      `sizeof(struct onefilefs_sb_info)`; `sbBlock` and `inodeBlock` are the
      records `sb_bread` yields for blocks 0 and 1, or `None` when it yields
      no buffer. After reading block 1 the code tests the superblock pointer
      instead of the buffer head, so an unreadable block 1 is dereferenced. */
  function FillSuperAsWritten(sbInfoSize: nat, sbBlock: Option<Superblock>, inodeBlock: Option<FileInode>)
    : (r: FillOutcome)
    ensures r == NullDeref <==> sbInfoSize <= BLOCK_SIZE && sbBlock.Some? && inodeBlock.None?
  {
    if sbInfoSize > BLOCK_SIZE then FillErr(-ENOMEM)
    else if sbBlock.None? then FillErr(-EIO)
    else if inodeBlock.None? then NullDeref
    else if MountedBlocks(inodeBlock.value) > ExpectedBlocks(sbBlock.value) then FillErr(-EINVAL)
    else if sbBlock.value.magic != MAGIC then FillErr(-EBADF)
    else FillOk
  }

  /** `singlefilefs_fill_super` with the buffer head of block 1 checked, as
      the one of block 0 is: an unreadable block gives -EIO. */
  function FillSuper(sbInfoSize: nat, sbBlock: Option<Superblock>, inodeBlock: Option<FileInode>)
    : (r: FillOutcome)
    ensures !r.NullDeref?
    // the three rejections, in the order they are made
    ensures sbInfoSize > BLOCK_SIZE ==> r == FillErr(-ENOMEM)
    ensures sbInfoSize <= BLOCK_SIZE && (sbBlock.None? || inodeBlock.None?) ==> r == FillErr(-EIO)
    ensures sbInfoSize <= BLOCK_SIZE && sbBlock.Some? && inodeBlock.Some? ==>
              && (MountedBlocks(inodeBlock.value) > ExpectedBlocks(sbBlock.value) ==> r == FillErr(-EINVAL))
              && ((MountedBlocks(inodeBlock.value) <= ExpectedBlocks(sbBlock.value) && sbBlock.value.magic != MAGIC)
                  ==> r == FillErr(-EBADF))
    ensures r == FillOk <==>
              && sbInfoSize <= BLOCK_SIZE && sbBlock.Some? && inodeBlock.Some?
              && MountedBlocks(inodeBlock.value) <= ExpectedBlocks(sbBlock.value)
              && sbBlock.value.magic == MAGIC
  {
    if inodeBlock.None? && sbInfoSize <= BLOCK_SIZE && sbBlock.Some? then FillErr(-EIO)
    else FillSuperAsWritten(sbInfoSize, sbBlock, inodeBlock)
  }

  /** The two differ only when block 1 cannot be read. */
  lemma FillSuperAsWrittenAgrees(sbInfoSize: nat, sbBlock: Option<Superblock>, inodeBlock: Option<FileInode>)
    requires inodeBlock.Some?
    ensures FillSuperAsWritten(sbInfoSize, sbBlock, inodeBlock) == FillSuper(sbInfoSize, sbBlock, inodeBlock)
  {
  }

  /** The shared flags: `is_mounted` (a `uint64_t` only ever set to 0 or 1)
      and the `usages` counter of operations in flight. */
  datatype FsState = FsState(isMounted: uint64, usages: nat)

  const UNMOUNTED: FsState := FsState(0, 0)

  predicate FlagIsBoolean(s: FsState)
  {
    s.isMounted == 0 || s.isMounted == 1
  }

  /** What `mount_bdev` returns: the root dentry, an error raised before
      `fill_super` runs (no superblock exists yet, e.g. a device path that
      does not exist), or the error of a `fill_super` that rejected the
      device, after which `mount_bdev` has the superblock killed through the
      filesystem's `kill_sb`. */
  datatype BdevOutcome = BdevOk | BdevErr(errno: NegErrno) | FillRejected(errno: NegErrno)

  /** The value of `fill_super` as `mount_bdev` passes it on. */
  function BdevOf(f: FillOutcome): (r: BdevOutcome)
    requires !f.NullDeref?
    ensures r.BdevOk? <==> f.FillOk?
    ensures !r.BdevErr?
    ensures r.FillRejected? ==> f == FillErr(r.errno)
  {
    if f.FillOk? then BdevOk else FillRejected(f.errno)
  }

  /** Reply of a mount: the new flags, and 0 for a root dentry or a negated
      error number. */
  datatype MountReply = MountReply(state: FsState, ret: int)

  /** `singlefilefs_mount` as written: SRCU initialisation, then the
      compare-and-swap of `is_mounted` from 0 to 1, then `mount_bdev`, whose
      failure is passed on. The module itself never lowers the flag again;
      only the `kill_sb` that follows a rejecting `fill_super` does. */
  function MountFs(s: FsState, srcuInitOk: bool, bdev: BdevOutcome): (r: MountReply)
    ensures r.state.usages == s.usages
    ensures !srcuInitOk ==> r == MountReply(s, -ENOMEM)
    ensures srcuInitOk && s.isMounted != 0 ==> r == MountReply(s, -EEXIST)
    ensures srcuInitOk && s.isMounted == 0 && !bdev.FillRejected? ==> r.state.isMounted == 1
    ensures r.ret == 0 <==> srcuInitOk && s.isMounted == 0 && bdev.BdevOk?
    // a failing `mount_bdev` has its error passed on
    ensures srcuInitOk && s.isMounted == 0 && !bdev.BdevOk? ==> r.ret == bdev.errno
    // after a rejecting `fill_super`, `kill_sb` runs on the raised flag
    ensures srcuInitOk && s.isMounted == 0 && bdev.FillRejected? ==>
              r.state == KillSuperblock(s.(isMounted := 1)).state
    ensures srcuInitOk && s.isMounted == 0 && bdev.FillRejected? ==>
              (r.state.isMounted == 0 <==> s.usages == 0)
    ensures r.state.isMounted != s.isMounted ==> s.isMounted == 0 && r.state.isMounted == 1
  {
    if !srcuInitOk then MountReply(s, -ENOMEM)
    else if s.isMounted != 0 then MountReply(s, -EEXIST)
    else
      var s' := s.(isMounted := 1);
      match bdev
      case BdevOk => MountReply(s', 0)
      case BdevErr(e) => MountReply(s', e)
      case FillRejected(e) => MountReply(KillSuperblock(s').state, e)
  }

  /** `singlefilefs_mount` with the flag given back when `mount_bdev` fails. */
  function MountFsFixed(s: FsState, srcuInitOk: bool, bdev: BdevOutcome): (r: MountReply)
    ensures r.state.usages == s.usages
    ensures r.ret == 0 <==> srcuInitOk && s.isMounted == 0 && bdev.BdevOk?
    // the flag is raised exactly by a successful mount
    ensures r.state.isMounted != s.isMounted <==> r.ret == 0
    ensures r.ret == 0 ==> r.state.isMounted == 1
  {
    var r := MountFs(s, srcuInitOk, bdev);
    if r.ret != 0 && r.state.isMounted != s.isMounted then MountReply(s, r.ret) else r
  }

  /** Reply of an unmount: the new flags, and whether the superblock was
      released (`cleanup_srcu_struct` and `kill_block_super` ran). */
  datatype KillReply = KillReply(state: FsState, released: bool)

  /** `singlefilefs_kill_superblock`: refused while operations are in
      flight; otherwise the compare-and-swap of `is_mounted` from 1 to 0,
      after which the superblock is released. */
  function KillSuperblock(s: FsState): (r: KillReply)
    ensures r.state.usages == s.usages
    ensures s.usages != 0 ==> r == KillReply(s, false)
    ensures r.released <==> s.usages == 0 && s.isMounted == 1
    ensures r.released ==> r.state.isMounted == 0
    ensures !r.released ==> r.state == s
  {
    if s.usages != 0 then KillReply(s, false)
    else if s.isMounted != 1 then KillReply(s, false)
    else KillReply(s.(isMounted := 0), true)
  }

  /** Neither transition takes the flag out of {0, 1}. */
  lemma FlagStaysBoolean(s: FsState, srcuInitOk: bool, bdev: BdevOutcome)
    requires FlagIsBoolean(s)
    ensures FlagIsBoolean(MountFs(s, srcuInitOk, bdev).state)
    ensures FlagIsBoolean(MountFsFixed(s, srcuInitOk, bdev).state)
    ensures FlagIsBoolean(KillSuperblock(s).state)
  {
  }

  /** Mounting is exclusive: once a mount has succeeded, a second one is
      refused with -EEXIST and leaves `is_mounted` and `usages` as they were. */
  lemma SecondMountRefused(s: FsState, bdev1: BdevOutcome, bdev2: BdevOutcome)
    requires MountFs(s, true, bdev1).ret == 0
    ensures var s1 := MountFs(s, true, bdev1).state;
            MountFs(s1, true, bdev2) == MountReply(s1, -EEXIST)
  {
  }

  /** An unmount with no operation in flight undoes a successful mount. */
  lemma MountThenUnmount(s: FsState, bdev: BdevOutcome)
    requires s.usages == 0 && MountFs(s, true, bdev).ret == 0
    ensures KillSuperblock(MountFs(s, true, bdev).state) == KillReply(s, true)
  {
  }

  /** As written, a `mount_bdev` that fails before `fill_super` runs leaves
      the flag raised, so every later mount is refused with -EEXIST although
      nothing is mounted. */
  lemma FailedMountBlocksRemount(e: NegErrno, bdev: BdevOutcome)
    ensures var s1 := MountFs(UNMOUNTED, true, BdevErr(e));
            && s1.ret == e
            && s1.state.isMounted == 1
            && MountFs(s1.state, true, bdev).ret == -EEXIST
  {
  }

  /** A device that `fill_super` rejects is not mounted: `kill_sb` lowers the
      flag again, so with no operation in flight the state is as before and
      the rejection's error is returned. */
  lemma RejectedDeviceLeavesUnmounted(s: FsState, sbInfoSize: nat, sbBlock: Option<Superblock>, inodeBlock: Option<FileInode>)
    requires s.isMounted == 0 && s.usages == 0
    requires FillSuper(sbInfoSize, sbBlock, inodeBlock) != FillOk
    ensures var f := FillSuper(sbInfoSize, sbBlock, inodeBlock);
            MountFs(s, true, BdevOf(f)) == MountReply(s, f.errno)
  {
  }

  /** With the flag given back, a failed mount leaves the state as it was
      and a retry can succeed. */
  lemma FixedFailedMountAllowsRemount(s: FsState, e: NegErrno)
    requires s.isMounted == 0
    ensures MountFsFixed(s, true, BdevErr(e)).state == s
    ensures MountFsFixed(MountFsFixed(s, true, BdevErr(e)).state, true, BdevOk).ret == 0
  {
  }
}

=== FILE: wrappers.dfy ===
/** Failure-carrying values: a missing value, or a result that is either a
    value or an error. */
module Wrappers {

  datatype Option<+T> = None | Some(value: T)

  datatype Result<+R, +E> = Success(value: R) | Failure(error: E)
}
